=== FILE: README.md ===
# Bank mini-project: entity layer

A Dafny model of the entity layer of a single-user console banking
application (`bank_miniproject_interactive.py`). The application keeps
customers, accounts, a transaction log, employees, loans and credit cards
in SQLite and changes them through small guarded read-modify-write
operations: `deposit`, `withdraw`, `make_purchase`, `approve`, the
`save_new` of every entity, and the `address` setter of a customer. The
model also covers the two input checks `BankSystem` makes before an insert
(`create_customer`, `create_account`).

How the program is represented:

- **The database** is `Store.Db`: six `Store.Table`s, each a map from row
  id to row plus the AUTOINCREMENT counter (ids start at 1). `_execute_dml`
  becomes `Table.Insert` (returns the new id, or `None`) and
  `Table.Update` (returns whether the statement succeeded); `_fetch_record`
  becomes `Table.Select`. Whether a statement succeeds is a parameter
  `ok`. An UPDATE whose key matches no row (an id of `None` is SQL NULL)
  still succeeds, as in SQLite. An insert that would put NULL into a
  NOT NULL column (`customer_id`, `account_id`) fails. The `is_active`
  column is never named by an insert, so new rows get its default 1.
- **Objects** are immutable snapshots (`Accounts.Account`,
  `Customers.Customer`, `Loans.Loan`, `CreditCards.Card`,
  `Employees.Employee`). A mutator returns its boolean result, the new
  snapshot and the new database.
- **Python truthiness** of an `Optional[int]` id (`if new_id:`,
  `if self._loan_id:`) is `Values.Truthy`: both `None` and `0` are false.
- **Amounts** are exact `real`s. The round trip "deposit x, then
  withdraw x" restores the balance exactly only under this idealisation.
- **Timestamps** (`datetime.now()`, `date.today()`) are opaque strings
  passed in.

Behaviour the code does not have, though one might expect it (the model
follows the code):

- Employee names are not checked anywhere; an empty name is stored.
- `deposit` and `withdraw` return a boolean, not the new balance.
- A failed insert of the transaction row is ignored, and the mutator
  still returns true.
- An account can be opened with a negative initial deposit, and a card can
  be issued with a negative limit. Neither input is checked. The first is
  logged under Findings. The second means `0 <= debt <= limit` holds only
  for cards whose limit is non-negative (`CreditCards.Bounded`).
- `make_purchase` and `approve` change the snapshot before the write, so a
  failed write exposes a partial update (Findings).

## Model

| member | source | states |
|---|---|---|
| Store.Table.Insert | bank_miniproject_interactive.py:143-154 | An INSERT returns an id exactly when it succeeds. On success the row is stored under an id that was not in use, and the table grows by one. On failure the table is unchanged. Table well-formedness is preserved. |
| Store.Table.Update | bank_miniproject_interactive.py:143-154 | An UPDATE reports success exactly when the statement succeeds, even when no row matches. Only the row with the given key is changed. No row is added or removed, and the counter is untouched. |
| Store.Table.Select | bank_miniproject_interactive.py:133-141 | A fetch by id yields the stored row exactly when the read succeeds and the id exists. Otherwise it yields `None`. |
| Store.EmptyDb | bank_miniproject_interactive.py:40-116 | A freshly created database has six empty, well-formed tables. |
| Customers.Make | bank_miniproject_interactive.py:158-164 | The constructor keeps the given fields. A missing or empty join date becomes today's date. |
| Customers.SaveNew | bank_miniproject_interactive.py:183-191 | The id is returned exactly when the insert succeeds, and it is the counter's next id, the key the new row is stored under. The snapshot adopts it only if it is truthy. A failed insert leaves the customer unsaved and the store unchanged. A success stores the four fields under a fresh id and touches no other table. |
| Customers.Load | bank_miniproject_interactive.py:193-201 | Load finds a customer exactly when the row exists and the read succeeds. The result carries the row's fields and the id that was asked for. |
| Customers.SetAddress | bank_miniproject_interactive.py:175-181 | The snapshot always takes the new address. The store changes only when the id is truthy and the write succeeds, and then only that customer's address. |
| Customers.SaveThenLoad | bank_miniproject_interactive.py:183-201 | A saved customer loads back as the same snapshot. |
| Customers.SetAddressThenLoad | bank_miniproject_interactive.py:175-201 | After a successful address change on a saved customer, a load shows the new address, and the snapshot agrees with the store. |
| Customers.SetAddressBeforeSave | bank_miniproject_interactive.py:175-191 | Changing the address of an unsaved customer leaves the store as it was. A later save stores the new address. |
| Accounts.Open | bank_miniproject_interactive.py:205-211 | A new account snapshot has no id, is active, and carries the given customer, balance and type. |
| Accounts.RecordTransaction | bank_miniproject_interactive.py:221-225 | Only the transaction log can change. It gains exactly one row (account id, kind, amount, timestamp) when the insert succeeds and the account has an id. Otherwise it is unchanged. |
| Accounts.Deposit | bank_miniproject_interactive.py:227-239 | Returns true exactly when the amount is positive and the balance write succeeds. On false, nothing changes. On true, the snapshot and the stored balance both rise by the amount, and no other field, row or table changes except for one Deposit log row when its insert succeeds. |
| Accounts.Withdraw | bank_miniproject_interactive.py:241-256 | Returns true exactly when 0 < amount <= snapshot balance and the write succeeds, so withdrawing the full balance is allowed. On false, nothing changes. On true, the snapshot and the stored balance both fall by the amount, and one Withdrawal row may be logged. A non-negative balance stays non-negative. |
| Accounts.SaveNew | bank_miniproject_interactive.py:258-266 | The id is returned exactly when the insert succeeds, and it is the counter's next id, the key the new row is stored under. A snapshot without a customer always fails. The snapshot adopts a truthy id. A failure changes nothing. A success stores customer, balance, type and the default active flag under a fresh id. |
| Accounts.Load | bank_miniproject_interactive.py:268-276 | Load finds an account exactly when the row exists and the read succeeds. The snapshot carries the row's fields and the requested id. |
| Accounts.SaveThenLoad | bank_miniproject_interactive.py:258-276 | A saved account loads back as the saved snapshot, except that it is marked active. |
| Accounts.DepositThenWithdraw | bank_miniproject_interactive.py:227-256 | From a non-negative balance, depositing x and then withdrawing x both succeed. They restore the snapshot and every stored balance, and they append exactly two log rows: the Deposit, then the Withdrawal. |
| Accounts.DepositKeepsInSync | bank_miniproject_interactive.py:227-239 | If the snapshot balance equals the stored balance before a deposit, it does afterwards too, whatever the outcome of either statement. |
| Accounts.WithdrawKeepsInSync | bank_miniproject_interactive.py:241-256 | If the snapshot balance equals the stored balance before a withdrawal, it does afterwards too, whatever the outcome of either statement. |
| Accounts.MutatorsKeepBalancesNonNegative | bank_miniproject_interactive.py:227-256 | If no stored balance is negative, a deposit keeps it so, and so does a withdrawal made from a snapshot that agrees with the store. |
| Accounts.RunKeepsBalanceNonNegative | bank_miniproject_interactive.py:227-256 | Any sequence of deposits and withdrawals, whatever their outcomes, leaves a non-negative snapshot balance non-negative. |
| Accounts.RunKeepsInSync | bank_miniproject_interactive.py:227-256 | Any sequence of deposits and withdrawals on a snapshot that agrees with the store keeps the two in agreement, so the stored balance stays non-negative. |
| Accounts.RunKeepsId | bank_miniproject_interactive.py:227-256 | No deposit or withdrawal changes the account's id. |
| Accounts.RunNet | bank_miniproject_interactive.py:235-252 | When every call in a sequence succeeded, the balance moved by exactly the sum of the deposits minus the sum of the withdrawals. |
| Accounts.RunLedgerAppendOnly | bank_miniproject_interactive.py:221-256 | The transaction log is append-only. Every earlier row survives unchanged, and at most one row is added per call. |
| Accounts.SavingsScenario | bank_miniproject_interactive.py:227-266 | A Savings account opened with 100.00 refuses a withdrawal of 150.00 and changes nothing. A deposit of 50.00 then brings it to 150.00 in the snapshot and the store, with exactly one Deposit row of 50.00 logged. |
| Employees.Hire | bank_miniproject_interactive.py:280-286 | A new employee snapshot has no id and keeps the given names, position and salary. |
| Employees.SaveNew | bank_miniproject_interactive.py:293-301 | The id is returned exactly when the insert succeeds, and it is the counter's next id, the key the new row is stored under. The snapshot adopts it if it is truthy. A failure changes nothing. A success stores the four fields under a fresh id. Names are not checked. |
| Loans.Apply | bank_miniproject_interactive.py:305-311 | A new loan application is unsaved and Pending, and keeps the given customer, amount and rate. |
| Loans.Approve | bank_miniproject_interactive.py:318-327 | Returns true exactly when the loan is Pending, has a truthy id and the write succeeds. If the guard fails, nothing changes. If it holds, the snapshot becomes Approved even when the write fails. In the store, only the status of the loan's own row can change, and only to Approved on success. No other row, column or table changes. |
| Loans.ApproveAfterWrite | bank_miniproject_interactive.py:318-327 | Corrected approve: the same result as the original, but a false result leaves both snapshot and store unchanged. A success sets only the status of the loan's own row to Approved. |
| Loans.SaveNew | bank_miniproject_interactive.py:329-337 | The id is returned exactly when the insert succeeds, and it is the counter's next id, the key the new row is stored under. A loan without a customer always fails. The snapshot adopts a truthy id. A success stores customer, amount, rate and status under a fresh id. A failure changes nothing. |
| Loans.ApproveOneWay | bank_miniproject_interactive.py:318-327 | Approve changes nothing but the status, in the snapshot and in the store. Each status either stays as it was or becomes Approved. For a loan whose row agrees with the snapshot, a stored status changes only from Pending. An Approved loan is never approved again. |
| Loans.ApproveTwice | bank_miniproject_interactive.py:318-327 | On a Pending, saved loan, a second approve always returns false and leaves the loan Approved and the store as the first call left it. |
| Loans.SaveThenApprove | bank_miniproject_interactive.py:305-337 | A freshly saved application can be approved. Afterwards the stored row reads Approved with the original customer, amount and rate. |
| Loans.ApproveFailureLeavesApproved | bank_miniproject_interactive.py:320-327 | As written, a failed write leaves an Approved snapshot over a Pending row, and that snapshot can never be approved again. |
| Loans.ApproveAfterWriteKeepsInSync | bank_miniproject_interactive.py:318-327 | With the corrected approve, snapshot and store agree after every call, whatever its outcome. |
| CreditCards.Issue | bank_miniproject_interactive.py:341-347 | A new card is unsaved, active and debt-free, with the given customer and limit. |
| CreditCards.AvailableCredit | bank_miniproject_interactive.py:351-352 | Debt plus available credit equals the limit. Available credit is non-negative exactly when debt is within the limit. |
| CreditCards.WriteDebt | bank_miniproject_interactive.py:365-366 | The debt UPDATE reports success exactly when the statement succeeds. It writes only the `current_debt` of the card's own row, and only on success. |
| CreditCards.MakePurchase | bank_miniproject_interactive.py:354-369 | Returns true exactly when 0 < amount <= available credit and the write succeeds. A refused amount changes nothing. An accepted amount raises the snapshot's debt, staying within the limit, even when the write fails. On success, only the stored debt of the card's own row changes, to the new snapshot debt, so store and snapshot agree. No other row, column or table changes. |
| CreditCards.MakePurchaseAfterWrite | bank_miniproject_interactive.py:354-369 | Corrected purchase: the same result as the original, but a false result changes neither snapshot nor store. A success writes only the card's own stored debt. |
| CreditCards.IssueThenSave | bank_miniproject_interactive.py:522-523 | A card issued with a non-negative limit and then saved starts with 0 <= debt <= limit and agrees with its stored row. This is the base case for the purchase invariant. |
| CreditCards.SaveNew | bank_miniproject_interactive.py:371-379 | The id is returned exactly when the insert succeeds, and it is the counter's next id, the key the new row is stored under. A card without a customer always fails. The snapshot adopts a truthy id. A success stores customer, limit, debt and the default active flag under a fresh id. |
| CreditCards.PurchaseKeepsBounded | bank_miniproject_interactive.py:354-369 | If 0 <= debt <= limit holds before any purchase attempt, it still holds afterwards, and the limit does not change. |
| CreditCards.FullCreditAllowed | bank_miniproject_interactive.py:360-369 | A purchase of exactly the available credit is accepted and brings the debt to the limit. Any larger amount is refused. |
| CreditCards.RunKeepsBounded | bank_miniproject_interactive.py:354-369 | No sequence of purchase attempts takes a bounded card past its limit, either in the snapshot or in its stored row. |
| CreditCards.CardScenario | bank_miniproject_interactive.py:341-379 | A new 500.00 card is saved under id 1. Then 600.00 is refused with nothing changed, 500.00 is accepted with the stored debt becoming 500.00, and a further 0.01 is refused. |
| CreditCards.MakePurchaseFailureRaisesDebt | bank_miniproject_interactive.py:364-369 | As written, a failed write of an accepted purchase returns false, with the snapshot's debt above the stored debt by exactly the amount. |
| CreditCards.PurchaseAfterWriteKeepsInSync | bank_miniproject_interactive.py:354-369 | With the corrected purchase, snapshot and store agree after every call, whatever its outcome. |
| Bank.CreateCustomer | bank_miniproject_interactive.py:391-403 | Refused with no write exactly when a name is empty. Otherwise the result is "not saved" exactly when the insert fails. A success reports the new row's id and stores the names, address and today's date under it. |
| Bank.CreateAccount | bank_miniproject_interactive.py:423-440 | Refused with no write exactly when the customer cannot be loaded or the type is neither Checking nor Savings. Otherwise a success reports the new row's id and stores the account under it, with the initial deposit as its balance. |
| Bank.CreateAccountNonNegative | bank_miniproject_interactive.py:433-440 | Corrected account opening: a negative initial deposit is also refused with no write. Every other opening behaves as before: "not saved" exactly when the insert fails, and otherwise created under the counter's next id with the deposit as its balance. |
| Bank.EnrolmentScenario | bank_miniproject_interactive.py:398-403 | A customer with an empty first name is refused and nothing is stored. Ada Lovelace is stored under id 1. |
| Bank.CreateAccountNonNegativeKeepsBalances | bank_miniproject_interactive.py:433-440 | With the corrected check, opening an account never stores a negative balance. |
| Bank.NegativeOpeningBalanceAccepted | bank_miniproject_interactive.py:433-440 | As written, opening a Checking account with -50.00 succeeds and stores a negative balance. |

## Findings

| source | as written | input that shows it | evidently intended | confidence | as-written member | corrected member |
|---|---|---|---|---|---|---|
| bank_miniproject_interactive.py:433-440 | The initial deposit is read and stored as the balance without a sign check | customer 1 exists, type "Checking", initial deposit -50.00: the new account row has balance -50.00 | every balance non-negative, as `deposit` and `withdraw` keep it | medium, not executed | Bank.NegativeOpeningBalanceAccepted | Bank.CreateAccountNonNegative |
| bank_miniproject_interactive.py:364-369 | The snapshot's debt is raised before the UPDATE runs | an accepted purchase whose write fails: returns false, snapshot debt = stored debt + amount | a false result leaves the card as it was, as `deposit` and `withdraw` do | medium, not executed | CreditCards.MakePurchaseFailureRaisesDebt | CreditCards.MakePurchaseAfterWrite |
| bank_miniproject_interactive.py:320-327 | The snapshot's status becomes Approved before the UPDATE runs | a Pending, saved loan whose write fails: returns false, snapshot Approved, row Pending, and it can never be approved again | a false result leaves the loan Pending | medium, not executed | Loans.ApproveFailureLeavesApproved | Loans.ApproveAfterWrite |

## Left out

- Connection setup, `create_tables`' SQL text and `close`: the store is an abstract map per table. Engine failures of any kind are the `ok` flags.
- Foreign keys: SQLite does not enforce them unless asked, and the program never asks, so no reference check is modelled.
- Logging: every `logging.*` call is output only.
- The menu loops and `view_customer`, `perform_transaction`, `add_employee`, `apply_for_loan` and `issue_credit_card`: these are console plumbing. The constructors they call (`Accounts.Open`, `Employees.Hire`, `Loans.Apply`, `CreditCards.Issue`) are modelled, and so are the two guards of `create_customer` and `create_account`.
- Input parsing (`strip`, `capitalize`, `int`, `float`): the guards receive the already-parsed values.
- Floating point: amounts are exact reals, so rounding and NaN are not modelled. A NaN amount passes every guard in Python.
- `full_name` and the plain getters: they only read fields.
- Concurrency: the program is single-threaded. A stale snapshot can still over-withdraw the store, because `withdraw` checks the snapshot's balance. The store-side guarantees are therefore stated for snapshots that agree with the store (`InSync`).

=== FILE: accounts.dfy ===
/** Accounts: the in-memory snapshot of one account, the balance mutators
    `deposit` and `withdraw` with their transaction log entries, and
    `save_new` / `load`. */
module Accounts {
  import opened Values
  import opened Store

  const Checking: string := "Checking"
  const Savings: string := "Savings"
  const DepositKind: string := "Deposit"
  const WithdrawalKind: string := "Withdrawal"

  /** The snapshot an `Account` object holds. */
  datatype Account = Account(id: Option<int>, customerId: Option<int>, balance: real, accountType: string, isActive: int)

  /** Result of a mutator: its boolean return value, the snapshot after the
      call and the database after the call. */
  datatype Step = Step(ok: bool, account: Account, db: Db)

  /** Result of `save_new`: the returned id, the snapshot and the database. */
  datatype Saved = Saved(newId: Option<int>, account: Account, db: Db)

  /** The constructor as `create_account` calls it: no id yet, active. */
  function Open(customerId: Option<int>, balance: real, accountType: string): (a: Account)
    ensures a.id.None? && a.isActive == 1
    ensures a.customerId == customerId && a.balance == balance && a.accountType == accountType
  {
    Account(None, customerId, balance, accountType, 1)
  }

  /** The stored row of the account agrees with the snapshot's balance. */
  ghost predicate InSync(a: Account, db: Db)
  {
    a.id.Some? && a.id.value in db.accounts.rows && db.accounts.rows[a.id.value].balance == a.balance
  }

  /** Every stored account balance is non-negative. */
  ghost predicate BalancesNonNegative(db: Db)
  {
    forall k :: k in db.accounts.rows ==> db.accounts.rows[k].balance >= 0.0
  }

  /** Only the `accounts` and `transactions` tables may differ. */
  ghost predicate OtherTablesSame(db: Db, db': Db)
  {
    db'.(accounts := db.accounts, transactions := db.transactions) == db
  }

  /** `db'.accounts` is `db.accounts` with the stored balance of the row
      whose id is `id` (if there is one) moved by `delta`. */
  ghost predicate BalanceMoved(db: Db, db': Db, id: Option<int>, delta: real)
  {
    && db'.accounts.next == db.accounts.next
    && db'.accounts.rows.Keys == db.accounts.rows.Keys
    && forall k :: k in db.accounts.rows ==>
         db'.accounts.rows[k] ==
           if id == Some(k) then db.accounts.rows[k].(balance := db.accounts.rows[k].balance + delta)
           else db.accounts.rows[k]
  }

  /** The transaction log gained the one row `(id, kind, amount, now)` when
      its insert could succeed, and is unchanged otherwise. */
  ghost predicate Logged(db: Db, db': Db, id: Option<int>, kind: string, amount: real, now: string, ok: bool)
  {
    if ok && id.Some? then db.transactions.AppendedTo(db'.transactions, TransactionRow(id.value, kind, amount, now))
    else db'.transactions == db.transactions
  }

  /** `_record_transaction`: inserts one ledger row; its outcome is ignored
      by the callers. `account_id` is NOT NULL, so an account without an id
      makes the insert fail. */
  function RecordTransaction(a: Account, db: Db, kind: string, amount: real, now: string, ok: bool): (db': Db)
    ensures db' == db.(transactions := db'.transactions)
    ensures Logged(db, db', a.id, kind, amount, now, ok)
    ensures db.Valid() ==> db'.Valid()
  {
    if a.id.None? then db
    else db.(transactions := db.transactions.Insert(TransactionRow(a.id.value, kind, amount, now), ok).table)
  }

  /** `deposit`: rejects a non-positive amount; otherwise adds `amount` to
      the stored balance and, only if that write succeeded, to the snapshot,
      then logs a Deposit row. `updateOk` and `insertOk` are the outcomes
      of the two statements. */
  function Deposit(a: Account, db: Db, amount: real, updateOk: bool, insertOk: bool, now: string): (r: Step)
    ensures r.ok <==> amount > 0.0 && updateOk
    ensures !r.ok ==> r.account == a && r.db == db
    ensures r.ok ==> r.account == a.(balance := a.balance + amount)
    ensures r.ok ==> OtherTablesSame(db, r.db) && BalanceMoved(db, r.db, a.id, amount)
    ensures r.ok ==> Logged(db, r.db, a.id, DepositKind, amount, now, insertOk)
    ensures db.Valid() ==> r.db.Valid()
  {
    if amount <= 0.0 then Step(false, a, db)
    else
      var u := db.accounts.Update(a.id, (row: AccountRow) => row.(balance := row.balance + amount), updateOk);
      if u.done then
        var a' := a.(balance := a.balance + amount);
        Step(true, a', RecordTransaction(a', db.(accounts := u.table), DepositKind, amount, now, insertOk))
      else Step(false, a, db)
  }

  /** `withdraw`: rejects a non-positive amount and an amount above the
      snapshot balance (equal is allowed); otherwise subtracts it from the
      stored balance and, only if that write succeeded, from the snapshot,
      then logs a Withdrawal row. */
  function Withdraw(a: Account, db: Db, amount: real, updateOk: bool, insertOk: bool, now: string): (r: Step)
    ensures r.ok <==> 0.0 < amount <= a.balance && updateOk
    ensures !r.ok ==> r.account == a && r.db == db
    ensures r.ok ==> r.account == a.(balance := a.balance - amount)
    ensures r.ok ==> OtherTablesSame(db, r.db) && BalanceMoved(db, r.db, a.id, -amount)
    ensures r.ok ==> Logged(db, r.db, a.id, WithdrawalKind, amount, now, insertOk)
    ensures a.balance >= 0.0 ==> r.account.balance >= 0.0
    ensures db.Valid() ==> r.db.Valid()
  {
    if amount <= 0.0 then Step(false, a, db)
    else if amount > a.balance then Step(false, a, db)
    else
      var u := db.accounts.Update(a.id, (row: AccountRow) => row.(balance := row.balance - amount), updateOk);
      if u.done then
        var a' := a.(balance := a.balance - amount);
        Step(true, a', RecordTransaction(a', db.(accounts := u.table), WithdrawalKind, amount, now, insertOk))
      else Step(false, a, db)
  }

  /** `save_new`: inserts the row (balance and type from the snapshot,
      `is_active` from the column default) and adopts the returned id when
      it is truthy. `customer_id` is NOT NULL, so a snapshot without a
      customer makes the insert fail. */
  function SaveNew(a: Account, db: Db, ok: bool): (r: Saved)
    ensures r.newId.Some? <==> ok && a.customerId.Some?
    ensures r.newId.Some? ==> r.newId == Some(db.accounts.next)
    ensures r.newId.None? ==> r.account == a && r.db == db
    ensures r.account == if Truthy(r.newId) then a.(id := r.newId) else a
    ensures r.newId.Some? ==> r.db == db.(accounts := r.db.accounts)
    ensures r.newId.Some? ==> db.accounts.AppendedTo(r.db.accounts, AccountRow(a.customerId.value, a.balance, a.accountType, DefaultActive))
    ensures db.Valid() ==> r.db.Valid()
    ensures db.Valid() && r.newId.Some? ==> r.newId.value !in db.accounts.rows && Truthy(r.newId)
  {
    if a.customerId.None? then Saved(None, a, db)
    else
      var ins := db.accounts.Insert(AccountRow(a.customerId.value, a.balance, a.accountType, DefaultActive), ok);
      var a' := if Truthy(ins.id) then a.(id := ins.id) else a;
      Saved(ins.id, a', db.(accounts := ins.table))
  }

  /** `Account.load`: the row mapped back into a snapshot, or `None`. */
  function Load(db: Db, id: int, readOk: bool): (r: Option<Account>)
    ensures r.Some? <==> readOk && id in db.accounts.rows
    ensures r.Some? ==> var row := db.accounts.rows[id];
      r.value == Account(Some(id), Some(row.customerId), row.balance, row.accountType, row.isActive)
  {
    match db.accounts.Select(id, readOk)
    case None => None
    case Some(row) => Some(Account(Some(id), Some(row.customerId), row.balance, row.accountType, row.isActive))
  }

  // ---------------------------------------------------------------------
  // Properties relating several calls

  /** Saving a new account and loading it back yields the saved snapshot,
      except that `is_active` is the column default. */
  lemma SaveThenLoad(a: Account, db: Db)
    requires db.Valid() && a.customerId.Some?
    ensures var s := SaveNew(a, db, true);
      s.newId.Some? && Load(s.db, s.newId.value, true) == Some(s.account.(isActive := DefaultActive))
  {
  }

  /** A successful deposit of `x` followed by a successful withdrawal of
      `x` restores the snapshot and the stored balances, and the ledger
      grows by exactly the two rows, in that order. */
  lemma DepositThenWithdraw(a: Account, db: Db, x: real, now1: string, now2: string)
    requires db.Valid() && a.balance >= 0.0 && x > 0.0 && a.id.Some?
    ensures var d := Deposit(a, db, x, true, true, now1);
      var w := Withdraw(d.account, d.db, x, true, true, now2);
      && d.ok && w.ok
      && w.account == a
      && w.db.accounts == db.accounts
      && w.db.(transactions := db.transactions) == db
      && w.db.transactions.rows == db.transactions.rows[db.transactions.next := TransactionRow(a.id.value, DepositKind, x, now1)]
                                                    [db.transactions.next + 1 := TransactionRow(a.id.value, WithdrawalKind, x, now2)]
      && |w.db.transactions.rows| == |db.transactions.rows| + 2
  {
  }

  /** `deposit` keeps a synchronised snapshot synchronised, whatever the
      outcome of either statement. */
  lemma DepositKeepsInSync(a: Account, db: Db, amount: real, updateOk: bool, insertOk: bool, now: string)
    requires InSync(a, db)
    ensures var r := Deposit(a, db, amount, updateOk, insertOk, now); InSync(r.account, r.db)
  {
  }

  /** `withdraw` keeps a synchronised snapshot synchronised, whatever the
      outcome of either statement. */
  lemma WithdrawKeepsInSync(a: Account, db: Db, amount: real, updateOk: bool, insertOk: bool, now: string)
    requires InSync(a, db)
    ensures var r := Withdraw(a, db, amount, updateOk, insertOk, now); InSync(r.account, r.db)
  {
  }

  /** No stored balance goes negative through a deposit, nor through a
      withdrawal made on a synchronised snapshot. */
  lemma MutatorsKeepBalancesNonNegative(a: Account, db: Db, amount: real, updateOk: bool, insertOk: bool, now: string)
    requires BalancesNonNegative(db)
    ensures BalancesNonNegative(Deposit(a, db, amount, updateOk, insertOk, now).db)
    ensures InSync(a, db) ==> BalancesNonNegative(Withdraw(a, db, amount, updateOk, insertOk, now).db)
  {
  }

  // ---------------------------------------------------------------------
  // Sequences of deposits and withdrawals on one snapshot

  /** One call of the menu's transaction screen, with the outcomes of its
      two statements. */
  datatype Op =
    | DepositOp(amount: real, updateOk: bool, insertOk: bool, now: string)
    | WithdrawOp(amount: real, updateOk: bool, insertOk: bool, now: string)

  function Perform(a: Account, db: Db, op: Op): Step
  {
    match op
    case DepositOp(x, u, i, t) => Deposit(a, db, x, u, i, t)
    case WithdrawOp(x, u, i, t) => Withdraw(a, db, x, u, i, t)
  }

  /** Runs `ops` in order on one snapshot; `ok` says whether every call
      returned true. */
  function Run(a: Account, db: Db, ops: seq<Op>): Step
    decreases |ops|
  {
    if |ops| == 0 then Step(true, a, db)
    else
      var s := Perform(a, db, ops[0]);
      var t := Run(s.account, s.db, ops[1..]);
      Step(s.ok && t.ok, t.account, t.db)
  }

  /** The net effect the calls in `ops` would have if every one succeeded. */
  function Net(ops: seq<Op>): real
    decreases |ops|
  {
    if |ops| == 0 then 0.0
    else (if ops[0].DepositOp? then ops[0].amount else -ops[0].amount) + Net(ops[1..])
  }

  /** After any sequence of calls, the snapshot balance is still
      non-negative if it started so. */
  lemma {:induction false} RunKeepsBalanceNonNegative(a: Account, db: Db, ops: seq<Op>)
    requires a.balance >= 0.0
    ensures Run(a, db, ops).account.balance >= 0.0
    decreases |ops|
  {
    if |ops| > 0 {
      var s := Perform(a, db, ops[0]);
      assert s.account.balance >= 0.0;
      RunKeepsBalanceNonNegative(s.account, s.db, ops[1..]);
    }
  }

  /** After any sequence of calls on a synchronised snapshot, the snapshot
      still equals the stored balance, so the stored balance stays
      non-negative too. */
  lemma {:induction false} RunKeepsInSync(a: Account, db: Db, ops: seq<Op>)
    requires InSync(a, db) && a.balance >= 0.0
    ensures InSync(Run(a, db, ops).account, Run(a, db, ops).db)
    ensures var r := Run(a, db, ops); a.id.value in r.db.accounts.rows && r.db.accounts.rows[a.id.value].balance >= 0.0
    decreases |ops|
  {
    var r := Run(a, db, ops);
    RunKeepsBalanceNonNegative(a, db, ops);
    if |ops| > 0 {
      var s := Perform(a, db, ops[0]);
      match ops[0] {
        case DepositOp(x, u, i, t) => DepositKeepsInSync(a, db, x, u, i, t);
        case WithdrawOp(x, u, i, t) => WithdrawKeepsInSync(a, db, x, u, i, t);
      }
      assert s.account.id == a.id;
      assert s.account.balance >= 0.0;
      RunKeepsInSync(s.account, s.db, ops[1..]);
      assert r.account.id == a.id by { RunKeepsId(s.account, s.db, ops[1..]); }
    }
  }

  /** No call changes the snapshot's id. */
  lemma {:induction false} RunKeepsId(a: Account, db: Db, ops: seq<Op>)
    ensures Run(a, db, ops).account.id == a.id
    decreases |ops|
  {
    if |ops| > 0 {
      var s := Perform(a, db, ops[0]);
      RunKeepsId(s.account, s.db, ops[1..]);
    }
  }

  /** When every call in `ops` succeeded, the balance moved by exactly the
      sum of the deposits minus the sum of the withdrawals. */
  lemma {:induction false} RunNet(a: Account, db: Db, ops: seq<Op>)
    requires Run(a, db, ops).ok
    ensures Run(a, db, ops).account.balance == a.balance + Net(ops)
    decreases |ops|
  {
    if |ops| > 0 {
      var s := Perform(a, db, ops[0]);
      RunNet(s.account, s.db, ops[1..]);
    }
  }

  /** The transaction log is append-only: every row present before a
      sequence of calls is still present and unchanged after it, and at
      most one row per call was added. */
  lemma {:induction false} RunLedgerAppendOnly(a: Account, db: Db, ops: seq<Op>)
    requires db.Valid()
    ensures var r := Run(a, db, ops);
      && r.db.Valid()
      && (forall k :: k in db.transactions.rows ==> k in r.db.transactions.rows && r.db.transactions.rows[k] == db.transactions.rows[k])
      && |r.db.transactions.rows| <= |db.transactions.rows| + |ops|
    decreases |ops|
  {
    if |ops| > 0 {
      var s := Perform(a, db, ops[0]);
      assert |s.db.transactions.rows| <= |db.transactions.rows| + 1;
      RunLedgerAppendOnly(s.account, s.db, ops[1..]);
    }
  }

  /** A Savings account opened with 100.00 refuses a
      withdrawal of 150.00 without change, then takes a deposit of 50.00
      to 150.00 with one Deposit row of 50.00 in the log. */
  lemma SavingsScenario(db: Db, customer: int, now1: string, now2: string)
    requires db.Valid()
    ensures var saved := SaveNew(Open(Some(customer), 100.0, Savings), db, true);
      var w := Withdraw(saved.account, saved.db, 150.0, true, true, now1);
      var d := Deposit(w.account, w.db, 50.0, true, true, now2);
      && !w.ok && w.account.balance == 100.0 && w.db == saved.db
      && d.ok && d.account.balance == 150.0
      && d.db.accounts.rows[saved.newId.value].balance == 150.0
      && d.db.transactions.rows == db.transactions.rows[db.transactions.next := TransactionRow(saved.newId.value, DepositKind, 50.0, now2)]
  {
  }
}

=== FILE: bank.dfy ===
/** The two validation guards of `BankSystem` that run before an insert:
    customer enrolment and account opening. The text input they read is
    passed in already stripped (and, for the account type, capitalised). */
module Bank {
  import opened Values
  import opened Store
  import Customers
  import Accounts

  /** What an enrolment screen achieved: refused by its guard before any
      write, attempted but not saved, or saved under `id`. */
  datatype Outcome = Rejected | NotSaved | Created(id: int)

  datatype Result = Result(outcome: Outcome, db: Db)

  /** The names `create_account` accepts as an account type. */
  predicate ValidAccountType(accountType: string)
  {
    accountType in [Accounts.Checking, Accounts.Savings]
  }

  /** `create_customer`: both names are required; then a new customer with
      today's join date is saved. */
  function CreateCustomer(db: Db, firstName: string, lastName: string, address: string, today: string, ok: bool): (r: Result)
    ensures r.outcome.Rejected? <==> !NonEmpty(firstName) || !NonEmpty(lastName)
    ensures r.outcome.NotSaved? <==> NonEmpty(firstName) && NonEmpty(lastName) && !ok
    ensures !r.outcome.Created? ==> r.db == db
    ensures r.outcome.Created? ==> r.db == db.(customers := r.db.customers)
    ensures r.outcome.Created? ==> r.outcome.id == db.customers.next
    ensures r.outcome.Created? ==> db.customers.AppendedTo(r.db.customers, CustomerRow(firstName, lastName, address, today))
    ensures db.Valid() ==> r.db.Valid()
    ensures db.Valid() && r.outcome.Created? ==> r.outcome.id !in db.customers.rows && r.outcome.id >= 1
  {
    if !NonEmpty(firstName) || !NonEmpty(lastName) then Result(Rejected, db)
    else
      var s := Customers.SaveNew(Customers.Make(None, firstName, lastName, address, None, today), db, ok);
      if s.newId.Some? then Result(Created(s.newId.value), s.db) else Result(NotSaved, s.db)
  }

  /** `create_account`, as written: the customer must load and the type
      must be Checking or Savings; the initial deposit is not checked. */
  function CreateAccount(db: Db, customerId: int, accountType: string, initialDeposit: real, readOk: bool, ok: bool): (r: Result)
    ensures r.outcome.Rejected? <==> !(readOk && customerId in db.customers.rows) || !ValidAccountType(accountType)
    ensures r.outcome.NotSaved? <==> readOk && customerId in db.customers.rows && ValidAccountType(accountType) && !ok
    ensures !r.outcome.Created? ==> r.db == db
    ensures r.outcome.Created? ==> r.outcome.id == db.accounts.next
    ensures r.outcome.Created? ==> r.db == db.(accounts := r.db.accounts)
    ensures r.outcome.Created? ==> db.accounts.AppendedTo(r.db.accounts, AccountRow(customerId, initialDeposit, accountType, DefaultActive))
    ensures db.Valid() ==> r.db.Valid()
  {
    // `Customer.load` returns None exactly when the row read yields nothing
    if db.customers.Select(customerId, readOk).None? then Result(Rejected, db)
    else if !ValidAccountType(accountType) then Result(Rejected, db)
    else
      var s := Accounts.SaveNew(Accounts.Open(Some(customerId), initialDeposit, accountType), db, ok);
      if s.newId.Some? then Result(Created(s.newId.value), s.db) else Result(NotSaved, s.db)
  }

  /** `create_account` with the missing check added: a negative initial
      deposit is refused like the other invalid inputs. */
  function CreateAccountNonNegative(db: Db, customerId: int, accountType: string, initialDeposit: real, readOk: bool, ok: bool): (r: Result)
    ensures r.outcome.Rejected? <==> !(readOk && customerId in db.customers.rows) || !ValidAccountType(accountType) || initialDeposit < 0.0
    ensures r.outcome.NotSaved? <==> readOk && customerId in db.customers.rows && ValidAccountType(accountType) && initialDeposit >= 0.0 && !ok
    ensures !r.outcome.Created? ==> r.db == db
    ensures r.outcome.Created? ==> r.outcome.id == db.accounts.next
    ensures r.outcome.Created? ==> r.db == db.(accounts := r.db.accounts)
    ensures r.outcome.Created? ==> db.accounts.AppendedTo(r.db.accounts, AccountRow(customerId, initialDeposit, accountType, DefaultActive))
    ensures db.Valid() ==> r.db.Valid()
  {
    if initialDeposit < 0.0 then Result(Rejected, db)
    else CreateAccount(db, customerId, accountType, initialDeposit, readOk, ok)
  }

  // ---------------------------------------------------------------------
  // Properties

  /** On an empty store, a customer with an empty first name is refused
      and nothing is stored, while Ada Lovelace is stored under id 1. */
  lemma EnrolmentScenario(today: string)
    ensures var db := EmptyDb();
      && CreateCustomer(db, "", "Smith", "", today, true) == Result(Rejected, db)
      && CreateCustomer(db, "Ada", "Lovelace", "221B", today, true).outcome == Created(1)
  {
  }

  /** With the check, opening an account keeps every stored balance
      non-negative. */
  lemma CreateAccountNonNegativeKeepsBalances(db: Db, customerId: int, accountType: string, initialDeposit: real, readOk: bool, ok: bool)
    requires db.Valid() && Accounts.BalancesNonNegative(db)
    ensures Accounts.BalancesNonNegative(CreateAccountNonNegative(db, customerId, accountType, initialDeposit, readOk, ok).db)
  {
  }

  /** As written, an account can be opened with a negative balance: on a
      store whose only customer has id 1 and no accounts, opening a
      Checking account with -50.00 stores that balance. */
  lemma NegativeOpeningBalanceAccepted(c: CustomerRow)
    ensures var db := EmptyDb().(customers := Table(map[1 := c], 2));
      var r := CreateAccount(db, 1, Accounts.Checking, -50.0, true, true);
      && Accounts.BalancesNonNegative(db)
      && r.outcome == Created(1)
      && r.db.accounts.rows[1].balance == -50.0
      && !Accounts.BalancesNonNegative(r.db)
  {
  }
}

=== FILE: credit_cards.dfy ===
/** Credit cards: the snapshot, `save_new`, `available_credit` and
    `make_purchase`. */
module CreditCards {
  import opened Values
  import opened Store

  datatype Card = Card(id: Option<int>, customerId: Option<int>, creditLimit: real, currentDebt: real, isActive: int)

  /** Result of a purchase: its boolean return value, the snapshot and the
      database. */
  datatype Step = Step(ok: bool, card: Card, db: Db)

  /** Result of `save_new`: the returned id, the snapshot and the database. */
  datatype Saved = Saved(newId: Option<int>, card: Card, db: Db)

  /** The constructor as `issue_credit_card` calls it: unsaved, active and
      without debt. */
  function Issue(customerId: Option<int>, creditLimit: real): (c: Card)
    ensures c.id.None? && c.currentDebt == 0.0 && c.isActive == 1
    ensures c.customerId == customerId && c.creditLimit == creditLimit
  {
    Card(None, customerId, creditLimit, 0.0, 1)
  }

  /** The card's debt lies between zero and its limit. */
  ghost predicate Bounded(c: Card)
  {
    0.0 <= c.currentDebt <= c.creditLimit
  }

  /** The stored row of the card carries the snapshot's debt. */
  ghost predicate InSync(c: Card, db: Db)
  {
    c.id.Some? && c.id.value in db.cards.rows && db.cards.rows[c.id.value].currentDebt == c.currentDebt
  }

  /** `available_credit`: what is left of the limit. */
  function AvailableCredit(c: Card): (r: real)
    ensures r >= 0.0 <==> c.currentDebt <= c.creditLimit
    ensures c.currentDebt + r == c.creditLimit
  {
    c.creditLimit - c.currentDebt
  }

  /** The guard of `make_purchase`: a positive amount within the available
      credit (equal is allowed). */
  predicate Accepts(c: Card, amount: real)
  {
    0.0 < amount <= AvailableCredit(c)
  }

  /** `db'.cards` is `db.cards` with the stored debt of the row whose id is
      `id` (if there is one) set to `debt` when `written`, and otherwise
      unchanged; no other row or column changes. */
  ghost predicate DebtWritten(db: Db, db': Db, id: Option<int>, debt: real, written: bool)
  {
    && db'.cards.next == db.cards.next
    && db'.cards.rows.Keys == db.cards.rows.Keys
    && forall k :: k in db.cards.rows ==>
         db'.cards.rows[k] ==
           if written && id == Some(k) then db.cards.rows[k].(currentDebt := debt) else db.cards.rows[k]
  }

  /** The UPDATE writes the new debt as an absolute value, keyed by the
      card's id. */
  function WriteDebt(c: Card, db: Db, debt: real, ok: bool): (u: Updated<CardRow>)
    ensures u.done == ok
    ensures DebtWritten(db, db.(cards := u.table), c.id, debt, ok)
  {
    db.cards.Update(c.id, (row: CardRow) => row.(currentDebt := debt), ok)
  }

  /** `make_purchase`, as written: when the guard holds the snapshot's debt
      grows BEFORE the UPDATE runs, so a failed write returns false with
      the snapshot's debt already raised. */
  function MakePurchase(c: Card, db: Db, amount: real, ok: bool): (r: Step)
    ensures r.ok <==> Accepts(c, amount) && ok
    ensures !Accepts(c, amount) ==> r.card == c && r.db == db
    ensures Accepts(c, amount) ==> r.card == c.(currentDebt := c.currentDebt + amount)
    ensures Accepts(c, amount) ==> r.card.currentDebt <= r.card.creditLimit
    ensures r.db == db.(cards := r.db.cards)
    ensures !r.ok ==> r.db == db
    ensures r.ok ==> DebtWritten(db, r.db, c.id, c.currentDebt + amount, true)
    ensures r.ok && c.id.Some? && c.id.value in db.cards.rows ==> InSync(r.card, r.db)
    ensures db.Valid() ==> r.db.Valid()
  {
    if amount <= 0.0 then Step(false, c, db)
    else if amount > AvailableCredit(c) then Step(false, c, db)
    else
      var c' := c.(currentDebt := c.currentDebt + amount);
      var u := WriteDebt(c, db, c'.currentDebt, ok);
      if u.done then Step(true, c', db.(cards := u.table))
      else Step(false, c', db)
  }

  /** `make_purchase` with the snapshot changed only after the write
      succeeded. */
  function MakePurchaseAfterWrite(c: Card, db: Db, amount: real, ok: bool): (r: Step)
    ensures r.ok <==> Accepts(c, amount) && ok
    ensures !r.ok ==> r.card == c && r.db == db
    ensures r.ok ==> r.card == c.(currentDebt := c.currentDebt + amount)
    ensures r.ok ==> r.card.currentDebt <= r.card.creditLimit
    ensures r.db == db.(cards := r.db.cards)
    ensures r.ok ==> DebtWritten(db, r.db, c.id, c.currentDebt + amount, true)
    ensures db.Valid() ==> r.db.Valid()
  {
    if amount <= 0.0 || amount > AvailableCredit(c) then Step(false, c, db)
    else
      var debt := c.currentDebt + amount;
      var u := WriteDebt(c, db, debt, ok);
      if u.done then Step(true, c.(currentDebt := debt), db.(cards := u.table))
      else Step(false, c, db)
  }

  /** `save_new`: inserts limit and debt (`is_active` from the column
      default) and adopts the returned id when it is truthy. `customer_id`
      is NOT NULL, so a card without a customer makes the insert fail. */
  function SaveNew(c: Card, db: Db, ok: bool): (r: Saved)
    ensures r.newId.Some? <==> ok && c.customerId.Some?
    ensures r.newId.Some? ==> r.newId == Some(db.cards.next)
    ensures r.newId.None? ==> r.card == c && r.db == db
    ensures r.card == if Truthy(r.newId) then c.(id := r.newId) else c
    ensures r.newId.Some? ==> r.db == db.(cards := r.db.cards)
    ensures r.newId.Some? ==> db.cards.AppendedTo(r.db.cards, CardRow(c.customerId.value, c.creditLimit, c.currentDebt, DefaultActive))
    ensures db.Valid() ==> r.db.Valid()
    ensures db.Valid() && r.newId.Some? ==> r.newId.value !in db.cards.rows && Truthy(r.newId)
  {
    if c.customerId.None? then Saved(None, c, db)
    else
      var ins := db.cards.Insert(CardRow(c.customerId.value, c.creditLimit, c.currentDebt, DefaultActive), ok);
      var c' := if Truthy(ins.id) then c.(id := ins.id) else c;
      Saved(ins.id, c', db.(cards := ins.table))
  }

  // ---------------------------------------------------------------------
  // Properties

  /** A bounded card stays bounded through any purchase attempt, accepted
      or not, written or not; and the limit never changes. */
  lemma PurchaseKeepsBounded(c: Card, db: Db, amount: real, ok: bool)
    requires Bounded(c)
    ensures var r := MakePurchase(c, db, amount, ok);
      Bounded(r.card) && r.card.creditLimit == c.creditLimit
  {
  }

  /** A purchase of exactly the available credit is accepted and leaves
      the debt equal to the limit; any amount above it is refused. */
  lemma FullCreditAllowed(c: Card, db: Db, extra: real)
    requires Bounded(c) && c.currentDebt < c.creditLimit && extra > 0.0
    ensures var r := MakePurchase(c, db, AvailableCredit(c), true);
      r.ok && r.card.currentDebt == c.creditLimit
    ensures !MakePurchase(c, db, AvailableCredit(c) + extra, true).ok
  {
  }

  /** One purchase attempt, with the outcome of its write. */
  datatype Purchase = Purchase(amount: real, ok: bool)

  /** Runs `ps` in order on one snapshot. */
  function Run(c: Card, db: Db, ps: seq<Purchase>): Step
    decreases |ps|
  {
    if |ps| == 0 then Step(true, c, db)
    else
      var s := MakePurchase(c, db, ps[0].amount, ps[0].ok);
      var t := Run(s.card, s.db, ps[1..]);
      Step(s.ok && t.ok, t.card, t.db)
  }

  /** No sequence of purchases takes a bounded card past its limit, in the
      snapshot or, for a card whose row exists, in the store. */
  lemma {:induction false} RunKeepsBounded(c: Card, db: Db, ps: seq<Purchase>)
    requires Bounded(c)
    requires c.id.Some? && c.id.value in db.cards.rows && Bounded(c.(currentDebt := db.cards.rows[c.id.value].currentDebt))
    ensures var r := Run(c, db, ps);
      && Bounded(r.card) && r.card.id == c.id && r.card.creditLimit == c.creditLimit
      && c.id.value in r.db.cards.rows && 0.0 <= r.db.cards.rows[c.id.value].currentDebt <= c.creditLimit
    decreases |ps|
  {
    if |ps| > 0 {
      var s := MakePurchase(c, db, ps[0].amount, ps[0].ok);
      PurchaseKeepsBounded(c, db, ps[0].amount, ps[0].ok);
      assert c.id.value in s.db.cards.rows;
      RunKeepsBounded(s.card, s.db, ps[1..]);
    }
  }

  /** A card issued with a non-negative limit and saved starts bounded and
      in agreement with its stored row. */
  lemma IssueThenSave(customer: int, limit: real, db: Db)
    requires db.Valid() && limit >= 0.0
    ensures var s := SaveNew(Issue(Some(customer), limit), db, true);
      Bounded(s.card) && InSync(s.card, s.db)
  {
  }

  /** On a new, saved card with limit 500.00, a
      purchase of 600.00 is refused, one of 500.00 is accepted and stored,
      and a further 0.01 is refused. */
  lemma CardScenario(customer: int)
    ensures var s := SaveNew(Issue(Some(customer), 500.0), EmptyDb(), true);
      var p1 := MakePurchase(s.card, s.db, 600.0, true);
      var p2 := MakePurchase(p1.card, p1.db, 500.0, true);
      var p3 := MakePurchase(p2.card, p2.db, 0.01, true);
      && s.newId == Some(1)
      && !p1.ok && p1.card == s.card && p1.db == s.db
      && p2.ok && p2.card.currentDebt == 500.0
      && p2.db.cards.rows[1].currentDebt == 500.0
      && !p3.ok && p3.card.currentDebt == 500.0 && p3.db == p2.db
  {
  }

  /** As written, a failed write of an accepted purchase returns false
      with the snapshot's debt raised above the stored debt. */
  lemma MakePurchaseFailureRaisesDebt(c: Card, db: Db, amount: real)
    requires InSync(c, db) && Accepts(c, amount)
    ensures var r := MakePurchase(c, db, amount, false);
      && !r.ok && r.db == db
      && r.card.currentDebt == db.cards.rows[c.id.value].currentDebt + amount
      && !InSync(r.card, r.db)
  {
  }

  /** With the snapshot changed after the write, snapshot and store agree
      after every call, whatever its outcome. */
  lemma PurchaseAfterWriteKeepsInSync(c: Card, db: Db, amount: real, ok: bool)
    requires InSync(c, db)
    ensures var r := MakePurchaseAfterWrite(c, db, amount, ok);
      InSync(r.card, r.db) && (r.ok || r.card == c)
  {
  }
}

=== FILE: customers.dfy ===
/** Customers: the snapshot, `save_new`, `load` and the `address` setter
    that writes through to the store. */
module Customers {
  import opened Values
  import opened Store

  datatype Customer = Customer(id: Option<int>, firstName: string, lastName: string, address: string, joinDate: string)

  /** Result of `save_new`: the returned id, the snapshot and the database. */
  datatype Saved = Saved(newId: Option<int>, customer: Customer, db: Db)

  /** Snapshot and database after assigning `address`. */
  datatype Changed = Changed(customer: Customer, db: Db)

  /** The constructor: a missing or empty join date becomes `today`
      (`date.today().isoformat()`, passed in). */
  function Make(id: Option<int>, firstName: string, lastName: string, address: string, joinDate: Option<string>, today: string): (c: Customer)
    ensures c.id == id && c.firstName == firstName && c.lastName == lastName && c.address == address
    ensures joinDate.Some? && NonEmpty(joinDate.value) ==> c.joinDate == joinDate.value
    ensures joinDate.None? || !NonEmpty(joinDate.value) ==> c.joinDate == today
  {
    var date := if joinDate.Some? && NonEmpty(joinDate.value) then joinDate.value else today;
    Customer(id, firstName, lastName, address, date)
  }

  /** The stored row of the customer carries the snapshot's address. */
  ghost predicate InSync(c: Customer, db: Db)
  {
    c.id.Some? && c.id.value in db.customers.rows && db.customers.rows[c.id.value].address == c.address
  }

  function RowOf(c: Customer): CustomerRow
  {
    CustomerRow(c.firstName, c.lastName, c.address, c.joinDate)
  }

  /** `save_new`: inserts the four columns and adopts the returned id when
      it is truthy; a failed insert leaves the customer unsaved. */
  function SaveNew(c: Customer, db: Db, ok: bool): (r: Saved)
    ensures r.newId.Some? <==> ok
    ensures ok ==> r.newId == Some(db.customers.next)
    ensures !ok ==> r.customer == c && r.db == db
    ensures r.customer == if Truthy(r.newId) then c.(id := r.newId) else c
    ensures ok ==> r.db == db.(customers := r.db.customers)
    ensures ok ==> db.customers.AppendedTo(r.db.customers, CustomerRow(c.firstName, c.lastName, c.address, c.joinDate))
    ensures db.Valid() ==> r.db.Valid()
    ensures db.Valid() && ok ==> r.newId.value !in db.customers.rows && Truthy(r.newId)
  {
    var ins := db.customers.Insert(RowOf(c), ok);
    var c' := if Truthy(ins.id) then c.(id := ins.id) else c;
    Saved(ins.id, c', db.(customers := ins.table))
  }

  /** `Customer.load`: the row mapped back through the constructor, or
      `None` when no row has that id or the read failed. */
  function Load(db: Db, id: int, readOk: bool, today: string): (r: Option<Customer>)
    ensures r.Some? <==> readOk && id in db.customers.rows
    ensures r.Some? ==> var row := db.customers.rows[id];
      && r.value.id == Some(id)
      && r.value.firstName == row.firstName && r.value.lastName == row.lastName
      && r.value.address == row.address
      && r.value.joinDate == if NonEmpty(row.joinDate) then row.joinDate else today
  {
    match db.customers.Select(id, readOk)
    case None => None
    case Some(row) => Some(Make(Some(id), row.firstName, row.lastName, row.address, Some(row.joinDate), today))
  }

  /** The `address` setter: the snapshot always takes the new address; the
      store is written only when the customer has a truthy id, and the
      outcome of that write is not reported. */
  function SetAddress(c: Customer, db: Db, address: string, ok: bool): (r: Changed)
    ensures r.customer == c.(address := address)
    ensures !Truthy(c.id) || !ok ==> r.db == db
    ensures r.db == db.(customers := r.db.customers)
    ensures r.db.customers.next == db.customers.next && r.db.customers.rows.Keys == db.customers.rows.Keys
    ensures forall k :: k in db.customers.rows ==>
      r.db.customers.rows[k] == if Truthy(c.id) && ok && c.id == Some(k) then db.customers.rows[k].(address := address) else db.customers.rows[k]
    ensures db.Valid() ==> r.db.Valid()
  {
    var c' := c.(address := address);
    if Truthy(c.id) then
      var u := db.customers.Update(c.id, (row: CustomerRow) => row.(address := address), ok);
      Changed(c', db.(customers := u.table))
    else Changed(c', db)
  }

  /** A saved customer loads back as the same snapshot. */
  lemma SaveThenLoad(c: Customer, db: Db, today: string)
    requires db.Valid() && NonEmpty(c.joinDate)
    ensures var s := SaveNew(c, db, true);
      s.newId.Some? && Load(s.db, s.newId.value, true, today) == Some(s.customer)
  {
  }

  /** After a successful address write on a saved customer, loading the
      customer shows the new address and the snapshot agrees with the
      store. */
  lemma SetAddressThenLoad(c: Customer, db: Db, address: string, today: string)
    requires InSync(c, db) && Truthy(c.id)
    ensures var r := SetAddress(c, db, address, true);
      && InSync(r.customer, r.db)
      && Load(r.db, c.id.value, true, today).Some?
      && Load(r.db, c.id.value, true, today).value.address == address
  {
  }

  /** An unsaved customer's address change never reaches the store, so a
      later `save_new` stores the new address. */
  lemma SetAddressBeforeSave(c: Customer, db: Db, address: string)
    requires c.id.None?
    ensures var r := SetAddress(c, db, address, true);
      r.db == db && SaveNew(r.customer, r.db, true).db.customers.rows[db.customers.next].address == address
  {
  }
}

=== FILE: employees.dfy ===
/** Employees: the snapshot and `save_new`. */
module Employees {
  import opened Values
  import opened Store

  datatype Employee = Employee(id: Option<int>, firstName: string, lastName: string, position: string, salary: real)

  /** Result of `save_new`: the returned id, the snapshot and the database. */
  datatype Saved = Saved(newId: Option<int>, employee: Employee, db: Db)

  /** The constructor as `add_employee` calls it: no id yet. */
  function Hire(firstName: string, lastName: string, position: string, salary: real): (e: Employee)
    ensures e.id.None?
    ensures e.firstName == firstName && e.lastName == lastName && e.position == position && e.salary == salary
  {
    Employee(None, firstName, lastName, position, salary)
  }

  /** `save_new`: inserts the four columns and adopts the returned id when
      it is truthy. Names are not checked: an empty name is stored. */
  function SaveNew(e: Employee, db: Db, ok: bool): (r: Saved)
    ensures r.newId.Some? <==> ok
    ensures ok ==> r.newId == Some(db.employees.next)
    ensures !ok ==> r.employee == e && r.db == db
    ensures r.employee == if Truthy(r.newId) then e.(id := r.newId) else e
    ensures ok ==> r.db == db.(employees := r.db.employees)
    ensures ok ==> db.employees.AppendedTo(r.db.employees, EmployeeRow(e.firstName, e.lastName, e.position, e.salary))
    ensures db.Valid() ==> r.db.Valid()
    ensures db.Valid() && ok ==> r.newId.value !in db.employees.rows && Truthy(r.newId)
  {
    var ins := db.employees.Insert(EmployeeRow(e.firstName, e.lastName, e.position, e.salary), ok);
    var e' := if Truthy(ins.id) then e.(id := ins.id) else e;
    Saved(ins.id, e', db.(employees := ins.table))
  }
}

=== FILE: loans.dfy ===
/** Loans: the snapshot, `save_new` and the status transition `approve`. */
module Loans {
  import opened Values
  import opened Store

  const Pending: string := "Pending"
  const Approved: string := "Approved"

  datatype Loan = Loan(id: Option<int>, customerId: Option<int>, amount: real, interestRate: real, status: string)

  /** Result of a transition: its boolean return value, the snapshot and
      the database. */
  datatype Step = Step(ok: bool, loan: Loan, db: Db)

  /** Result of `save_new`: the returned id, the snapshot and the database. */
  datatype Saved = Saved(newId: Option<int>, loan: Loan, db: Db)

  /** The constructor as `apply_for_loan` calls it: an application starts
      unsaved and Pending. */
  function Apply(customerId: Option<int>, amount: real, rate: real): (l: Loan)
    ensures l.id.None? && l.status == Pending
    ensures l.customerId == customerId && l.amount == amount && l.interestRate == rate
  {
    Loan(None, customerId, amount, rate, Pending)
  }

  /** The stored row of the loan carries the snapshot's status. */
  ghost predicate InSync(l: Loan, db: Db)
  {
    l.id.Some? && l.id.value in db.loans.rows && db.loans.rows[l.id.value].status == l.status
  }

  /** `db'.loans` is `db.loans` with the status of the row whose id is `id`
      (if there is one) set to Approved when `written`, and otherwise
      unchanged; no other row or column changes. */
  ghost predicate StatusWritten(db: Db, db': Db, id: Option<int>, written: bool)
  {
    && db'.loans.next == db.loans.next
    && db'.loans.rows.Keys == db.loans.rows.Keys
    && forall k :: k in db.loans.rows ==>
         db'.loans.rows[k] ==
           if written && id == Some(k) then db.loans.rows[k].(status := Approved) else db.loans.rows[k]
  }

  /** The guard of `approve`: Pending and saved under a truthy id. */
  predicate CanApprove(l: Loan)
  {
    l.status == Pending && Truthy(l.id)
  }

  /** `approve`, as written: when the guard holds, the snapshot becomes
      Approved BEFORE the UPDATE runs, so a failed write returns false with
      the snapshot already Approved. */
  function Approve(l: Loan, db: Db, ok: bool): (r: Step)
    ensures r.ok <==> CanApprove(l) && ok
    ensures !CanApprove(l) ==> r.loan == l && r.db == db
    ensures CanApprove(l) ==> r.loan == l.(status := Approved)
    ensures r.db == db.(loans := r.db.loans)
    ensures StatusWritten(db, r.db, l.id, r.ok)
    ensures r.ok && InSync(l, db) ==> InSync(r.loan, r.db)
    ensures !r.ok ==> r.db == db
    ensures db.Valid() ==> r.db.Valid()
  {
    if CanApprove(l) then
      var l' := l.(status := Approved);
      var u := db.loans.Update(l.id, (row: LoanRow) => row.(status := Approved), ok);
      if u.done then Step(true, l', db.(loans := u.table))
      else Step(false, l', db)
    else Step(false, l, db)
  }

  /** `approve` with the snapshot changed only after the write succeeded. */
  function ApproveAfterWrite(l: Loan, db: Db, ok: bool): (r: Step)
    ensures r.ok <==> CanApprove(l) && ok
    ensures !r.ok ==> r.loan == l && r.db == db
    ensures r.ok ==> r.loan == l.(status := Approved)
    ensures r.db == db.(loans := r.db.loans)
    ensures StatusWritten(db, r.db, l.id, r.ok)
    ensures db.Valid() ==> r.db.Valid()
  {
    if CanApprove(l) then
      var u := db.loans.Update(l.id, (row: LoanRow) => row.(status := Approved), ok);
      if u.done then Step(true, l.(status := Approved), db.(loans := u.table))
      else Step(false, l, db)
    else Step(false, l, db)
  }

  /** `save_new`: inserts the application with the snapshot's status and
      adopts the returned id when it is truthy. `customer_id` is NOT NULL,
      so a loan without a customer makes the insert fail. */
  function SaveNew(l: Loan, db: Db, ok: bool): (r: Saved)
    ensures r.newId.Some? <==> ok && l.customerId.Some?
    ensures r.newId.Some? ==> r.newId == Some(db.loans.next)
    ensures r.newId.None? ==> r.loan == l && r.db == db
    ensures r.loan == if Truthy(r.newId) then l.(id := r.newId) else l
    ensures r.newId.Some? ==> r.db == db.(loans := r.db.loans)
    ensures r.newId.Some? ==> db.loans.AppendedTo(r.db.loans, LoanRow(l.customerId.value, l.amount, l.interestRate, l.status))
    ensures db.Valid() ==> r.db.Valid()
    ensures db.Valid() && r.newId.Some? ==> r.newId.value !in db.loans.rows && Truthy(r.newId)
  {
    if l.customerId.None? then Saved(None, l, db)
    else
      var ins := db.loans.Insert(LoanRow(l.customerId.value, l.amount, l.interestRate, l.status), ok);
      var l' := if Truthy(ins.id) then l.(id := ins.id) else l;
      Saved(ins.id, l', db.(loans := ins.table))
  }

  // ---------------------------------------------------------------------
  // Properties

  /** The status only moves forward: after `approve` it is either what it
      was or Approved, and it changes only from Pending. Nothing else in
      the snapshot changes. In the store, every status stays as it was or
      becomes Approved, and for a loan whose row agrees with the snapshot
      the stored status changes only from Pending. */
  lemma ApproveOneWay(l: Loan, db: Db, ok: bool)
    ensures var r := Approve(l, db, ok);
      && r.loan.(status := l.status) == l
      && (r.loan.status == l.status || (l.status == Pending && r.loan.status == Approved))
      && (l.status == Approved ==> r.loan.status == Approved && !r.ok)
    ensures var r := Approve(l, db, ok);
      && r.db.loans.rows.Keys == db.loans.rows.Keys
      && forall k :: k in db.loans.rows ==>
           r.db.loans.rows[k].(status := db.loans.rows[k].status) == db.loans.rows[k]
           && (r.db.loans.rows[k].status == db.loans.rows[k].status || r.db.loans.rows[k].status == Approved)
    ensures var r := Approve(l, db, ok);
      InSync(l, db) ==> forall k :: k in db.loans.rows && r.db.loans.rows[k].status != db.loans.rows[k].status ==>
        db.loans.rows[k].status == Pending
  {
  }

  /** A second `approve` on the result of the first returns false and
      leaves the loan Approved, whatever the first call returned. */
  lemma ApproveTwice(l: Loan, db: Db, ok1: bool, ok2: bool)
    requires CanApprove(l)
    ensures var r1 := Approve(l, db, ok1);
      var r2 := Approve(r1.loan, r1.db, ok2);
      && r1.ok == ok1
      && !r2.ok && r2.loan.status == Approved && r2.db == r1.db
  {
  }

  /** A freshly saved application can be approved, and the store then
      records it as Approved. */
  lemma SaveThenApprove(customer: int, amount: real, rate: real, db: Db)
    requires db.Valid()
    ensures var s := SaveNew(Apply(Some(customer), amount, rate), db, true);
      var r := Approve(s.loan, s.db, true);
      && r.ok && r.loan.status == Approved
      && InSync(r.loan, r.db)
      && r.db.loans.rows[s.newId.value] == LoanRow(customer, amount, rate, Approved)
  {
  }

  /** As written, a failed write leaves an Approved snapshot over a Pending
      row, and the loan can never be approved through that snapshot. */
  lemma ApproveFailureLeavesApproved(l: Loan, db: Db, ok2: bool)
    requires CanApprove(l) && InSync(l, db)
    ensures var r := Approve(l, db, false);
      && !r.ok && r.loan.status == Approved
      && db.loans.rows[l.id.value].status == Pending
      && !InSync(r.loan, r.db)
      && !Approve(r.loan, r.db, ok2).ok
  {
  }

  /** With the snapshot changed after the write, snapshot and store agree
      after every call, whatever its outcome. */
  lemma ApproveAfterWriteKeepsInSync(l: Loan, db: Db, ok: bool)
    requires InSync(l, db)
    ensures var r := ApproveAfterWrite(l, db, ok);
      InSync(r.loan, r.db) && (r.ok || r.loan == l)
  {
  }
}

=== FILE: store.dfy ===
/** The SQLite database as an abstract record store.

    Each table is a map from row id to row plus the AUTOINCREMENT counter
    that hands out the next id. Every statement that `_execute_dml` runs
    either succeeds or raises `sqlite3.Error`; the flag `ok` stands for
    that outcome, whatever its cause (disk, lock, constraint). */
module Store {
  import opened Values

  datatype CustomerRow = CustomerRow(firstName: string, lastName: string, address: string, joinDate: string)
  datatype AccountRow = AccountRow(customerId: int, balance: real, accountType: string, isActive: int)
  datatype TransactionRow = TransactionRow(accountId: int, kind: string, amount: real, timestamp: string)
  datatype EmployeeRow = EmployeeRow(firstName: string, lastName: string, position: string, salary: real)
  datatype LoanRow = LoanRow(customerId: int, amount: real, interestRate: real, status: string)
  datatype CardRow = CardRow(customerId: int, creditLimit: real, currentDebt: real, isActive: int)

  /** Column default of `is_active` in `accounts` and `credit_cards`; no
      INSERT names that column, so every new row gets it. */
  const DefaultActive: int := 1

  /** What an INSERT returns: the new row id (`cursor.lastrowid`) or `None`. */
  datatype Inserted<R> = Inserted(id: Option<int>, table: Table<R>)

  /** What an UPDATE returns: whether the statement succeeded (`1` or `None`). */
  datatype Updated<R> = Updated(done: bool, table: Table<R>)

  /** One table: its rows by id and the id the next insert receives. */
  datatype Table<R> = Table(rows: map<int, R>, next: int) {

    /** Ids start at 1 and every stored id is below the counter. */
    ghost predicate Valid()
    {
      next >= 1 && forall k :: k in rows ==> 1 <= k < next
    }

    /** `t` is this table with exactly one more row, `row`, stored under the
        id the counter held; the counter has moved past it. */
    ghost predicate AppendedTo(t: Table<R>, row: R)
    {
      t.rows == rows[next := row] && t.next == next + 1
    }

    /** An INSERT: on success the row is stored under a fresh id, which is
        returned; on failure nothing is stored and `None` is returned. */
    function Insert(row: R, ok: bool): (r: Inserted<R>)
      ensures r.id.Some? <==> ok
      ensures !ok ==> r.table == this
      ensures ok ==> r.id == Some(next) && AppendedTo(r.table, row)
      ensures Valid() ==> r.table.Valid()
      ensures Valid() && ok ==> r.id.value >= 1 && r.id.value !in rows && |r.table.rows| == |rows| + 1
    {
      if ok then Inserted(Some(next), Table(rows[next := row], next + 1))
      else Inserted(None, this)
    }

    /** An UPDATE ... WHERE id = key: the matching row, if any, becomes
        `f` of itself. A key that matches no row (including SQL NULL for a
        `None` id) is not an error: the statement still succeeds. */
    function Update(key: Option<int>, f: R -> R, ok: bool): (r: Updated<R>)
      ensures r.done == ok
      ensures r.table.next == next && r.table.rows.Keys == rows.Keys
      ensures forall k :: k in rows ==> r.table.rows[k] == if ok && key == Some(k) then f(rows[k]) else rows[k]
      ensures Valid() ==> r.table.Valid()
    {
      if ok && key.Some? && key.value in rows then Updated(true, Table(rows[key.value := f(rows[key.value])], next))
      else Updated(ok, this)
    }

    /** A SELECT ... WHERE id = key followed by `fetchone()`: the row, or
        `None` when no row matches or the read raised. */
    function Select(key: int, ok: bool): (r: Option<R>)
      ensures r.Some? <==> ok && key in rows
      ensures r.Some? ==> r.value == rows[key]
    {
      if ok && key in rows then Some(rows[key]) else None
    }
  }

  /** An empty table, as `CREATE TABLE IF NOT EXISTS` leaves it on a new file. */
  function EmptyTable<R>(): (t: Table<R>)
    ensures t.Valid() && |t.rows| == 0
  {
    Table(map[], 1)
  }

  /** The whole database: the six tables `create_tables` declares. */
  datatype Db = Db(
    customers: Table<CustomerRow>,
    accounts: Table<AccountRow>,
    transactions: Table<TransactionRow>,
    employees: Table<EmployeeRow>,
    loans: Table<LoanRow>,
    cards: Table<CardRow>)
  {
    ghost predicate Valid()
    {
      && customers.Valid()
      && accounts.Valid()
      && transactions.Valid()
      && employees.Valid()
      && loans.Valid()
      && cards.Valid()
    }
  }

  /** A freshly created database file. */
  function EmptyDb(): (db: Db)
    ensures db.Valid()
    ensures |db.customers.rows| == |db.accounts.rows| == |db.transactions.rows| == 0
    ensures |db.employees.rows| == |db.loans.rows| == |db.cards.rows| == 0
  {
    Db(EmptyTable(), EmptyTable(), EmptyTable(), EmptyTable(), EmptyTable(), EmptyTable())
  }
}

=== FILE: values.dfy ===
/** Small value types shared by every entity of the bank model. */
module Values {

  /** Python's `Optional[...]`: `None` for an id that was never assigned. */
  datatype Option<+T> = None | Some(value: T)

  /** Python truthiness of an `Optional[int]`, the test `save_new` applies
      to a returned id and `approve` to the loan's id: both `None` and `0`
      are false. */
  predicate Truthy(id: Option<int>)
  {
    id.Some? && id.value != 0
  }

  /** Python truthiness of a `str`, the test applied to required names:
      only the empty string is false. */
  predicate NonEmpty(s: string)
  {
    |s| != 0
  }
}
